=== FILE: README.md ===
# Task decomposition and execution loop of PC_Auto_Operation_System

This project models the task bookkeeping and control logic of a desktop-automation loop and proves properties of it in Dafny. The loop asks a language model to break a goal into a tree of subtasks until each leaf is "PC-operable". It then executes the leaves one by one. A leaf that keeps failing is retried, then re-decomposed in place or abandoned with a notification.

Every model call is an oracle whose answers are fixed for one run:

- **Decomposition.** The answers of `check_task_pc_level` and `task_generate` form a finite tree, `TaskTree.Plan`. At each task the oracle either judges it operable or splits it into an ordered list of subtasks, each with its own plan.
- **Execution.** `execute_single_task` yields a stream of `Execution.Attempt` answers: success, plain failure, or a raised error. A plain failure also carries the answer that re-running `recursive_task_breakdown` would give. The loop uses that answer only if the failure exhausts the retry budget, and the answer may itself be an exception.
- **TaskManager.** The reply to `_execute_task` is a `TaskManager.Reply`.

Modules, one per source component:

- `task_ids.dfy` (`TaskIds`) holds the hierarchical identifiers. It defines `str(i)`, the child identifier `parent + "-" + str(i)` and the ancestor order on identifiers.
- `breakdown.dfy` (`TaskTree`) models `recursive_task_breakdown`, `process_tasks` and `format_task_list`. It also gives a reference view of the tree as pre-order leaves with index paths.
- `task_status.dfy` (`TaskStatus`) models the status ledger `TaskExecutionStatus`. The ledger is generic in the key type: `main.py` uses string ids and `TaskManager` uses integer ids.
- `execute_tasks.dfy` (`Execution`) models `execute_tasks` as a state machine over (working list, cursor, ledger, notifications sent, retry loop running). `Run` drives it over a finite answer stream.
- `task_queue.dfy` (`TaskQueue`) models `TaskQueueManager`, and `task_manager.dfy` (`TaskManager`) models `TaskManager`.
- `script_generator.dfy` (`ScriptGenerator`) models `ScriptGenerator`.
- `wrappers.dfy` holds `Option` and `Result`, which stand for Python's `None` returns and raised errors.

Three behaviours of `execute_tasks` are easy to misread:

- **Exhaustion by exception.** The entry stays in the list and the cursor moves past it (`Execution.AttemptStep`).
- **Operable re-decomposition.** When the re-decomposition oracle now judges the failed task operable, the same `(task_id, task)` is spliced back in. The task is then re-initialised and retried with a fresh budget, under the same identifier (`Execution.OperableReplanReinstatesTask`).
- **Failing re-decomposition.** A re-decomposition that raises is caught by the same `except` branch. That branch counts a fifth retry and therefore always notifies and advances.

## Model

| member | source | states |
|---|---|---|
| TaskIds.Dec | src/main.py:100 | `str(i)` is a non-empty string of decimal digits, one digit exactly for i < 10 |
| TaskIds.ParseDecOfDec | src/main.py:100 | reading `str(i)` back as a decimal number gives `i` |
| TaskIds.DecInjective | src/main.py:99-100 | distinct child indices are printed as distinct strings |
| TaskIds.ChildId | src/main.py:100 | a child id is never empty; under an empty parent it is `str(i)` with no dash, otherwise it lies strictly below the parent (`parent + "-"` is its prefix) |
| TaskIds.IdOfAppend | src/main.py:99-101 | the id of path `p + [i]` is the child id `i` of the id of `p`, so ids are dash-joined 1-based index paths |
| TaskIds.SiblingsIncomparable | src/main.py:99-101 | two different children of one node get ids that are neither equal nor ancestor and descendant |
| TaskIds.BelowIncomparable | src/main.py:99-102 | everything at or below two unrelated ids stays unrelated |
| TaskTree.Breakdown | src/main.py:90-104 | the result has one entry per operable leaf of the oracle tree; an operable task yields exactly one entry, `(task_id, task)` when the id is non-empty and the 1-tuple `(task,)` when it is empty |
| TaskTree.Children | src/main.py:97-104 | the concatenated breakdowns of subtasks `k..` have as many entries as those subtrees have leaves |
| TaskTree.BreakdownIsLabelledLeaves | src/main.py:90-104 | the breakdown is exactly the pre-order list of leaves, each tagged with the dash-joined index path from the root; only an operable root without id gives a 1-tuple |
| TaskTree.BreakdownKeepsLeafOrder | src/main.py:97-104 | the descriptions in the result are the leaves' texts in pre-order |
| TaskTree.BreakdownIdsDistinct | src/main.py:99-102 | under a non-empty id every entry is a 2-tuple whose id equals or descends from that id, and the ids are pairwise distinct with none an ancestor of another |
| TaskTree.ChildrenIdsDistinct | src/main.py:99-102 | the breakdowns of subtasks `k..` form such an antichain, lie below the parent and are unrelated to the earlier siblings' ids |
| TaskTree.ProcessTasks | src/main.py:116-131 | the goal is split without an operability check; initial task `i` is broken down under `str(i)`; every entry is a 2-tuple with a non-empty id, as the unpacking in the loop needs; ids are pairwise distinct; the count is the leaf count |
| TaskTree.ProcessTasksIsRootBreakdown | src/main.py:116-123 | `process_tasks` equals the breakdown of the goal under an empty id whose plan splits it into the initial tasks, so the top-level ids are "1", "2", ... |
| TaskTree.FormatTaskList | src/main.py:106-114 | the formatted list has the same length, with line k formatting entry k |
| TaskTree.FormattedLineShowsEntry | src/main.py:109-113 | a 2-tuple's line is `id`, then ": ", then the description; a 1-tuple's line is the description alone |
| TaskTree.UniformLeafCount | src/main.py:97-104 | for a tree whose level d has `b_d` children per node, the number of leaves is the product of the `b_d` |
| TaskStatus.Fresh | src/task/task_status.py:2-5 | a new ledger has no entries |
| TaskStatus.NeverSeen | src/task/task_status.py:23-27 | an id never seen reads as status "unknown" with retry count 0 |
| TaskStatus.Initialize | src/task/task_status.py:7-9 | `initialize_task` sets "pending" and 0 for that id and changes no other id |
| TaskStatus.UpdateStatus | src/task/task_status.py:11-12 | `update_status` sets the given id's status, leaves every other status and all counters alone |
| TaskStatus.IncrementRetry | src/task/task_status.py:14-16 | the counter (missing = 0) grows by one; the result is true iff the new count is at most 3; statuses and other counters are untouched |
| TaskStatus.IncrementTimesCounts | src/task/task_status.py:14-16 | n increments raise the counter by exactly n and never touch the statuses |
| TaskStatus.RetryBudget | src/task/task_status.py:4-16 | after `initialize_task`, call n of `increment_retry` returns true iff n <= 3: calls 1-3 succeed, call 4 fails |
| TaskStatus.CompletedCountBound | src/task/task_status.py:18-21 | the number of "completed" ids is at most the number of ids, with equality iff every status is "completed" |
| TaskStatus.SuccessfulTasksCount | src/task/task_status.py:18-21 | `successful_tasks_count` never exceeds the number of keys in `status` |
| TaskStatus.CountCompleted | src/task/task_status.py:18-21 | visiting every status once and counting "completed" gives the number of completed ids |
| TaskStatus.CountAfterCompletion | src/task/task_status.py:11-21 | marking an id "completed" raises the count by one unless it was already completed |
| TaskStatus.CountAfterOtherStatus | src/task/task_status.py:11-21 | marking an id with any other status lowers the count by one iff it was completed |
| Execution.Start | src/main.py:206-208 | the loop starts on the given list with the cursor at 0, the caller's `execution_status` as it is and no notifications sent |
| Execution.Splice | src/main.py:229-231 | the new list is the entries before i, then the new subtasks, then the entries after i; its length is the old length - 1 + the number of subtasks, so an empty breakdown drops the entry |
| Execution.SpliceInPlace | src/main.py:229-231 | `pop(i)` followed by `insert(i + j, new_subtasks[j])` for each j yields exactly that splice |
| Execution.Enter | src/main.py:210-214 | visiting the entry at the cursor re-initialises its id: status "pending", retry count 0; every other id keeps its status and retry count; list, cursor and notifications are unchanged |
| Execution.OnError | src/main.py:235-246 | an exception sets status "failed" and counts exactly one retry, leaving every other id's status and count alone; within budget the list, cursor and notifications stay and the task is retried; at exhaustion exactly one notification naming the id and the error is appended, the cursor advances and the list is unchanged |
| Execution.AttemptStep | src/main.py:216-246 | only the current id's ledger entry changes. Success: status "completed", retry count kept, cursor + 1, list unchanged. Plain failure within budget: one retry counted, nothing moves. Plain-failure exhaustion counts one retry and keeps the status; if the re-decomposition raises, a second retry is counted by the `except` branch and the status becomes "failed". Plain-failure exhaustion: the entry is replaced by `recursive_task_breakdown(task, task_id)` and the cursor stays, so the first new subtask is next. Exhaustion by exception: one notification and the cursor advances. In all cases the passed prefix is unchanged |
| Execution.Run | src/main.py:206-248 | any run keeps the invariant; the cursor never moves back, the list before it never changes and notifications are only appended; a finished run has its cursor at the end of the list; a run stopped at the unpacking has a 1-tuple at its cursor; a run out of answers is inside a retry loop |
| Execution.SpliceKeepsAntichain | src/main.py:225-233 | splicing the breakdown of entry i under its own id keeps ids pairwise distinct and unrelated |
| Execution.StepKeepsAntichain | src/main.py:216-246 | one attempt keeps the ids of the working list an antichain |
| Execution.RunKeepsAntichain | src/main.py:210-233 | starting from distinct, unrelated 2-tuples, a run keeps them so and never meets a 1-tuple at the unpacking |
| Execution.ExecuteProcessedTasks | src/main.py:206-211 | the list `process_tasks` builds, executed with a fresh ledger, never fails to unpack and keeps distinct ids |
| Execution.CompletedAtMostInitialised | src/main.py:250-255 | after any run, `successful_tasks_count` never exceeds the number of ids in the ledger |
| Execution.FailingTaskGetsFourAttempts | src/main.py:214-246 | a task that always fails is attempted exactly four times. After each of the first three, list, cursor and notifications are unchanged and the retry count reaches 3. The fourth attempt ends the retry loop with a splice (plain failure) or a notification and a step forward (exception) |
| Execution.OperableReplanReinstatesTask | src/main.py:225-233 | when the re-decomposition judges the task operable, the same entry is put back and the cursor stays on it |
| Execution.PrefixIds | src/main.py:210-222 | the ids of the entries the cursor has passed number at most the cursor |
| Execution.PrefixIdsGrow | src/main.py:207-233 | the passed ids only grow along a run |
| Execution.RunKeepsAccounted | src/main.py:214-246 | every id marked "completed" belongs to an entry already passed, so `successful_tasks_count` <= cursor <= length of the working list |
| Execution.ReportAsWrittenOvercounts | src/main.py:253-256 | one task that fails four times and is replaced by two subtasks that succeed is reported as 2 successes out of 1 task |
| Execution.FinalReport | src/main.py:255-256 | with the total taken from the returned list, successes never exceed the total |
| Execution.FinalReportBounded | src/main.py:250-256 | every run from a fresh ledger satisfies the corrected report's bound |
| TaskQueue.Empty | src/task/task_queue.py:6-8 | a new queue manager is empty |
| TaskQueue.AddTask | src/task/task_queue.py:10-11 | `add_task` appends at the back and leaves the processing set alone |
| TaskQueue.GetNextTask | src/task/task_queue.py:13-18 | on an empty queue the result is None and nothing changes; otherwise the front task is returned and removed, and its id joins `processing_tasks` |
| TaskQueue.MarkCompleted | src/task/task_queue.py:20-22 | the id leaves `processing_tasks`; no other id changes; an absent id is a no-op |
| TaskQueue.MarkCompletedIdempotent | src/task/task_queue.py:20-22 | marking an id completed twice is the same as once |
| TaskQueue.MarkAllReleases | src/task/task_queue.py:20-22 | a batch of `mark_completed` calls leaves the waiting tasks alone and removes from processing exactly the ids it names |
| TaskQueue.EmptyOnceAllCompleted | src/task/task_queue.py:20-25 | after a batch of `mark_completed` calls, `is_empty` holds iff nothing was waiting and every id in processing was marked |
| TaskQueue.AddAllAppends | src/task/task_queue.py:10-11 | adding tasks one by one appends them in order |
| TaskQueue.DrainAll | src/task/task_queue.py:13-18 | calling `get_next_task` until None hands out the waiting tasks front to back and leaves all their ids in processing |
| TaskQueue.Fifo | src/task/task_queue.py:10-18 | tasks come out in the order they went in, after those already waiting |
| TaskManager.NewManager | src/task/task_manager.py:9-12 | a new manager has no statuses, no retry counts, nothing queued and nothing in processing, and satisfies the id invariant |
| TaskManager.CreateTask | src/task/task_manager.py:16-24 | the returned id is the number of known ids + 1 and is fresh; the id is "pending" with 0 retries; every other id keeps its status and retry count; the task dict goes to the back of the queue |
| TaskManager.CreateAllNumbers | src/task/task_manager.py:16-24 | successive `create_task` calls return consecutive ids following the number already known |
| TaskManager.SequentialIds | src/task/task_manager.py:16-24 | from a new manager, successive `create_task` calls return 1, 2, 3, ... |
| TaskManager.ProcessNextTask | src/task/task_manager.py:26-43 | an empty queue gives None and no change. Otherwise the front task is taken and run. A raising call or a reply without "success" gives False, not an exception, and a reply with it gives its value. On success that task becomes "completed" and its id leaves processing, with every other status, every retry count and every other processing id unchanged. On failure the ledger is unchanged, the id stays in processing and `is_empty` is false |
| ScriptGenerator.GenerateScript | src/llm/script_generator.py:4-11 | exactly "python", "batch" and "shell" are accepted, anything else is the `ValueError`; a script is the type's two-line header, the code verbatim, then a newline |
| ScriptGenerator.ExtractCode | src/llm/script_generator.py:13-32 | stripping a header and the trailing newline returns a code that rebuilds the script |
| ScriptGenerator.CodeRoundTrip | src/llm/script_generator.py:13-32 | stripping the template from a generated script gives back the reply's code |
| ScriptGenerator.DetectType | src/llm/script_generator.py:13-32 | a detected type is supported and its header starts the script |
| ScriptGenerator.TypeRoundTrip | src/llm/script_generator.py:13-32 | the header of a generated script tells which type produced it |
| ScriptGenerator.MissingCodeKeepsTitle | tests/test_script_generator.py:5-8 | a reply without "code" gives the bare python header plus a newline, which contains "Generated Python Script" |

## Left out

- `task_generate`'s retry-until-a-list loop (src/main.py:67-75), `check_task_pc_level` and the model calls they make are oracles. A run is determined by a finite `Plan` tree, so the unbounded retry and the unbounded recursion depth do not arise.
- The internals of `execute_single_task` (src/main.py:146-204) are an oracle. These are the screenshot, the choice of method, code generation, writing the script file, the script runner and the completion check.
- Sending e-mail (src/error_handling/notification.py) is not modelled. A notification is recorded as a `Notice` with the recipient, subject and message strings, and the recipient address from the configuration is a parameter.
- The `except` around `execute_tasks` in `main` (src/main.py:264-271) notifies and re-raises. It is not modelled. `Run` stops with `Unpackable` where the unpacking at src/main.py:211 would raise.
- `execute_tasks` need not terminate. `Run` stops when its finite answer stream runs out (`OutOfAnswers`), so runs longer than the stream are not described.
- The percentage at src/main.py:258-262 is not modelled: it uses float division and divides by zero on an empty list. Only the two integers of the report appear (see Findings).
- Logging, printing, configuration loading, `PromptManager`, the screenshot service, the subprocess runner and the `RetryMechanism` stub are not modelled. They are I/O or have no behaviour.
- The input list is copied at src/main.py:207. The model's lists are immutable values, so that property holds by construction and has no row.
- `queue.Queue` is thread-safe, but all use here is sequential, so the model uses a sequence.
- TaskManager.NewManager: builds the ledger and queue of src/task/task_manager.py:11-12 as if the language-model collaborator could be built. As written it cannot: `LLMInterface.__init__` requires `api_endpoint` (src/llm/interface.py:4), so `LLMInterface()` at task_manager.py:14 raises `TypeError` and `TaskManager()` never returns.
- The same `TypeError` stops `main()`. It is raised by `TaskManager()` at src/main.py:31 and by `LLMInterface()` at src/main.py:34, and the `except` at src/main.py:40-42 turns it into `SystemExit`. So as written, neither `process_tasks` nor `execute_tasks` is ever reached. The oracles in this model stand for a working collaborator.
- `LLMInterface` also has no `run` or `run_with_screenshot` method. As written, `_execute_task` therefore always meets an `AttributeError` and returns False. That is the model's `Reply.Raises` case.
- TaskManager.ProcessNextTask: the reply's "success" value is assumed to be a boolean. The source returns whatever value the reply holds, and `process_next_task` passes it through.
- ScriptGenerator.GenerateScript: the reply's "code" value is assumed to be a string. The source formats any value with `str()`.

## Findings

| source | as written | input that shows it | evidently intended | confidence | as-written member | corrected member |
|---|---|---|---|---|---|---|
| src/main.py:255-256 | the report divides successes by `len(final_task_list)`, the list before any splice | list `[("1", "t")]`; four plain failures, with re-decomposition into two operable subtasks; both succeed. The log says "2/1 tasks successful" | the total counts the tasks of the returned `updated_task_list`, so successes never exceed it | high; not executed | Execution.ReportAsWrittenOvercounts | Execution.FinalReportBounded |

=== FILE: breakdown.dfy ===
/**
 * Recursive task decomposition (`recursive_task_breakdown`, `process_tasks`
 * and `format_task_list` in src/main.py).
 *
 * The language-model calls `check_task_pc_level` and `task_generate` are an
 * oracle. For a given run their answers are fixed, so they are captured as a
 * finite `Plan` tree: at each task the oracle either judges it PC-operable or
 * splits it into an ordered list of subtasks, each with its own plan.
 */
module TaskTree {
  import opened TaskIds

  datatype Plan = Operable | Decompose(subtasks: seq<Subtask>)

  datatype Subtask = Subtask(desc: string, plan: Plan)

  /** A row of the task list: the 2-tuple `(id, task)` or the 1-tuple `(task,)`. */
  datatype Entry = Pair(id: string, desc: string) | Single(desc: string)

  /** Number of operable leaves of a plan. */
  function LeafCount(plan: Plan): nat
    decreases plan, 1, 0
  {
    match plan
    case Operable => 1
    case Decompose(_) => LeafCountFrom(plan, 0)
  }

  function LeafCountFrom(plan: Plan, k: nat): nat
    requires plan.Decompose? && k <= |plan.subtasks|
    decreases plan, 0, |plan.subtasks| - k
  {
    if k == |plan.subtasks| then 0
    else
      var s := plan.subtasks[k];
      LeafCount(s.plan) + LeafCountFrom(plan, k + 1)
  }

  /**
   * `recursive_task_breakdown(task, id)`: an operable task is returned as is,
   * otherwise child `i` (1-based) is broken down under `ChildId(id, i)` and
   * the results are concatenated in order.
   */
  function Breakdown(task: string, plan: Plan, id: string): (r: seq<Entry>)
    ensures |r| == LeafCount(plan)
    ensures plan.Operable? ==> |r| == 1 && r[0].desc == task && (r[0].Pair? <==> id != "")
    ensures plan.Operable? && id != "" ==> r[0].id == id
    decreases plan, 1, 0
  {
    match plan
    case Operable => if id != "" then [Pair(id, task)] else [Single(task)]
    case Decompose(_) => Children(plan, id, 0)
  }

  /** The concatenated breakdowns of subtasks `k..` of `plan`. */
  function Children(plan: Plan, id: string, k: nat): (r: seq<Entry>)
    requires plan.Decompose? && k <= |plan.subtasks|
    ensures |r| == LeafCountFrom(plan, k)
    decreases plan, 0, |plan.subtasks| - k
  {
    if k == |plan.subtasks| then []
    else
      var s := plan.subtasks[k];
      Breakdown(s.desc, s.plan, ChildId(id, k + 1)) + Children(plan, id, k + 1)
  }

  // ---------------------------------------------------------------------
  // Reference view: the pre-order leaves of a plan, with their index paths.
  // ---------------------------------------------------------------------

  /** A leaf of the decomposition tree: its 1-based index path and its text. */
  datatype Leaf = Leaf(path: seq<nat>, desc: string)

  /** The leaves of `plan` in pre-order; paths are relative to `task`. */
  function Leaves(task: string, plan: Plan): seq<Leaf>
    decreases plan, 1, 0
  {
    match plan
    case Operable => [Leaf([], task)]
    case Decompose(_) => LeavesFrom(plan, 0)
  }

  function LeavesFrom(plan: Plan, k: nat): seq<Leaf>
    requires plan.Decompose? && k <= |plan.subtasks|
    decreases plan, 0, |plan.subtasks| - k
  {
    if k == |plan.subtasks| then []
    else
      var s := plan.subtasks[k];
      Under(k + 1, Leaves(s.desc, s.plan)) + LeavesFrom(plan, k + 1)
  }

  /** Moves leaves one level down, below child `i`. */
  function Under(i: nat, leaves: seq<Leaf>): (r: seq<Leaf>)
    ensures |r| == |leaves|
    ensures forall j :: 0 <= j < |r| ==> r[j] == Leaf([i] + leaves[j].path, leaves[j].desc)
  {
    seq(|leaves|, j requires 0 <= j < |leaves| => Leaf([i] + leaves[j].path, leaves[j].desc))
  }

  /** The entry produced for a leaf reached from a node at `prefix`. */
  function Label(prefix: seq<nat>, leaf: Leaf): Entry {
    var path := prefix + leaf.path;
    if path == [] then Single(leaf.desc) else Pair(IdOf(path), leaf.desc)
  }

  function LabelAll(prefix: seq<nat>, leaves: seq<Leaf>): (r: seq<Entry>)
    ensures |r| == |leaves|
    ensures forall j :: 0 <= j < |r| ==> r[j] == Label(prefix, leaves[j])
  {
    seq(|leaves|, j requires 0 <= j < |leaves| => Label(prefix, leaves[j]))
  }

  lemma LabelAllAppend(prefix: seq<nat>, xs: seq<Leaf>, ys: seq<Leaf>)
    ensures LabelAll(prefix, xs + ys) == LabelAll(prefix, xs) + LabelAll(prefix, ys)
  {
  }

  lemma LabelAllUnder(prefix: seq<nat>, i: nat, leaves: seq<Leaf>)
    ensures LabelAll(prefix, Under(i, leaves)) == LabelAll(prefix + [i], leaves)
  {
    forall j | 0 <= j < |leaves|
      ensures Label(prefix, Under(i, leaves)[j]) == Label(prefix + [i], leaves[j])
    {
      assert prefix + ([i] + leaves[j].path) == (prefix + [i]) + leaves[j].path;
    }
  }

  /**
   * The breakdown is exactly the pre-order list of leaves, each labelled with
   * the dash-joined index path from the root ("2-2-1"); only a root that is
   * itself operable and has no identifier yields the 1-tuple.
   */
  lemma {:induction false} BreakdownIsLabelledLeaves(task: string, plan: Plan, prefix: seq<nat>)
    ensures Breakdown(task, plan, IdOf(prefix)) == LabelAll(prefix, Leaves(task, plan))
    decreases plan, 1, 0
  {
    match plan
    case Operable => assert prefix + [] == prefix;
    case Decompose(_) => ChildrenAreLabelledLeaves(plan, prefix, 0);
  }

  lemma {:induction false} ChildrenAreLabelledLeaves(plan: Plan, prefix: seq<nat>, k: nat)
    requires plan.Decompose? && k <= |plan.subtasks|
    ensures Children(plan, IdOf(prefix), k) == LabelAll(prefix, LeavesFrom(plan, k))
    decreases plan, 0, |plan.subtasks| - k
  {
    if k < |plan.subtasks| {
      var s := plan.subtasks[k];
      var sub := Leaves(s.desc, s.plan);
      IdOfAppend(prefix, k + 1);
      BreakdownIsLabelledLeaves(s.desc, s.plan, prefix + [k + 1]);
      ChildrenAreLabelledLeaves(plan, prefix, k + 1);
      LabelAllUnder(prefix, k + 1, sub);
      LabelAllAppend(prefix, Under(k + 1, sub), LeavesFrom(plan, k + 1));
    }
  }

  /** The descriptions of a task list, in order. */
  function Descs(entries: seq<Entry>): (r: seq<string>)
    ensures |r| == |entries|
  {
    seq(|entries|, j requires 0 <= j < |entries| => entries[j].desc)
  }

  /** Order is preserved: the descriptions are the leaves' texts in pre-order. */
  lemma BreakdownKeepsLeafOrder(task: string, plan: Plan, prefix: seq<nat>)
    ensures var leaves := Leaves(task, plan);
      Descs(Breakdown(task, plan, IdOf(prefix))) == seq(|leaves|, j requires 0 <= j < |leaves| => leaves[j].desc)
  {
    BreakdownIsLabelledLeaves(task, plan, prefix);
  }

  // ---------------------------------------------------------------------
  // Identifiers of the produced entries.
  // ---------------------------------------------------------------------

  /** Every entry is a 2-tuple with a non-empty identifier. */
  predicate AllPaired(entries: seq<Entry>) {
    forall k :: 0 <= k < |entries| ==> entries[k].Pair? && entries[k].id != ""
  }

  /** Identifiers are pairwise distinct and none is an ancestor of another. */
  predicate Antichain(entries: seq<Entry>) {
    && AllPaired(entries)
    && forall j, k :: 0 <= j < |entries| && 0 <= k < |entries| && j != k ==>
         Incomparable(entries[j].id, entries[k].id)
  }

  /** Every identifier in the list equals `id` or descends from it. */
  predicate AllBelow(id: string, entries: seq<Entry>)
    requires AllPaired(entries)
  {
    forall k :: 0 <= k < |entries| ==> Covers(id, entries[k].id)
  }

  /** Every identifier in the list is incomparable with `x`. */
  predicate Apart(x: string, entries: seq<Entry>)
    requires AllPaired(entries)
  {
    forall k :: 0 <= k < |entries| ==> Incomparable(x, entries[k].id)
  }

  lemma AntichainAppend(xs: seq<Entry>, ys: seq<Entry>)
    requires Antichain(xs) && Antichain(ys)
    requires forall j, k :: 0 <= j < |xs| && 0 <= k < |ys| ==> Incomparable(xs[j].id, ys[k].id)
    ensures Antichain(xs + ys)
  {
    var zs := xs + ys;
    forall j, k | 0 <= j < |zs| && 0 <= k < |zs| && j != k
      ensures Incomparable(zs[j].id, zs[k].id)
    {
      if j < |xs| && k >= |xs| {
        assert Incomparable(xs[j].id, ys[k - |xs|].id);
      } else if k < |xs| && j >= |xs| {
        assert Incomparable(xs[k].id, ys[j - |xs|].id);
      }
    }
  }

  lemma BelowTransitive(id: string, c: string, xs: seq<Entry>)
    requires AllPaired(xs) && AllBelow(c, xs) && Covers(id, c)
    ensures AllBelow(id, xs)
  {
    forall k | 0 <= k < |xs|
      ensures Covers(id, xs[k].id)
    {
      CoversTransitive(id, c, xs[k].id);
    }
  }

  lemma ApartFromBelow(x: string, c: string, xs: seq<Entry>)
    requires AllPaired(xs) && AllBelow(c, xs) && Incomparable(x, c)
    ensures Apart(x, xs)
  {
    forall k | 0 <= k < |xs|
      ensures Incomparable(x, xs[k].id)
    {
      BelowIncomparable(x, c, x, xs[k].id);
    }
  }

  lemma CrossApart(c: string, xs: seq<Entry>, ys: seq<Entry>)
    requires AllPaired(xs) && AllPaired(ys) && AllBelow(c, xs) && Apart(c, ys)
    ensures forall j, m :: 0 <= j < |xs| && 0 <= m < |ys| ==> Incomparable(xs[j].id, ys[m].id)
  {
    forall j, m | 0 <= j < |xs| && 0 <= m < |ys|
      ensures Incomparable(xs[j].id, ys[m].id)
    {
      BelowIncomparable(c, ys[m].id, xs[j].id, ys[m].id);
    }
  }

  /**
   * Broken down under a non-empty identifier, a task yields 2-tuples only,
   * all at or below that identifier, and with pairwise distinct identifiers
   * none of which is a prefix-path of another.
   */
  lemma {:induction false} BreakdownIdsDistinct(task: string, plan: Plan, id: string)
    requires id != ""
    ensures Antichain(Breakdown(task, plan, id))
    ensures AllBelow(id, Breakdown(task, plan, id))
    decreases plan, 1, 0
  {
    match plan
    case Operable =>
    case Decompose(_) =>
      ChildrenIdsDistinct(plan, id, 0);
  }

  /**
   * The children `k..` of a node: an antichain of 2-tuples below the node,
   * apart from every earlier sibling `1..k`.
   */
  lemma {:induction false} ChildrenIdsDistinct(plan: Plan, id: string, k: nat)
    requires plan.Decompose? && k <= |plan.subtasks|
    ensures Antichain(Children(plan, id, k))
    ensures id != "" ==> AllBelow(id, Children(plan, id, k))
    ensures forall i :: 1 <= i <= k ==> Apart(ChildId(id, i), Children(plan, id, k))
    decreases plan, 0, |plan.subtasks| - k
  {
    if k < |plan.subtasks| {
      var s := plan.subtasks[k];
      var c := ChildId(id, k + 1);
      var xs := Breakdown(s.desc, s.plan, c);
      var ys := Children(plan, id, k + 1);
      BreakdownIdsDistinct(s.desc, s.plan, c);
      ChildrenIdsDistinct(plan, id, k + 1);
      CrossApart(c, xs, ys);
      AntichainAppend(xs, ys);
      if id != "" {
        BelowTransitive(id, c, xs);
      }
      forall i | 1 <= i <= k
        ensures Apart(ChildId(id, i), xs + ys)
      {
        SiblingsIncomparable(id, i, k + 1);
        ApartFromBelow(ChildId(id, i), c, xs);
      }
    }
  }

  // ---------------------------------------------------------------------
  // process_tasks and format_task_list.
  // ---------------------------------------------------------------------

  /**
   * `process_tasks`: the goal is always split (by the oracle's `initial`
   * answer) without asking whether it is operable, initial task `i` is broken
   * down under the identifier `str(i)`, and the results are concatenated.
   */
  method ProcessTasks(initial: seq<Subtask>) returns (tasks: seq<Entry>)
    ensures tasks == Children(Decompose(initial), "", 0)
    ensures |tasks| == LeafCount(Decompose(initial))
    ensures Antichain(tasks)
  {
    var plan := Decompose(initial);
    tasks := [];
    var i := 0;
    while i < |initial|
      invariant 0 <= i <= |initial|
      invariant tasks + Children(plan, "", i) == Children(plan, "", 0)
    {
      var decomposed := Breakdown(initial[i].desc, initial[i].plan, Dec(i + 1));
      tasks := tasks + decomposed;
      i := i + 1;
    }
    ChildrenIdsDistinct(plan, "", 0);
  }

  /** `process_tasks` is the breakdown of a goal whose plan splits it into `initial`. */
  lemma ProcessTasksIsRootBreakdown(goal: string, initial: seq<Subtask>)
    ensures Children(Decompose(initial), "", 0) == Breakdown(goal, Decompose(initial), IdOf([]))
    ensures Children(Decompose(initial), "", 0)
         == LabelAll([], Leaves(goal, Decompose(initial)))
  {
    BreakdownIsLabelledLeaves(goal, Decompose(initial), []);
  }

  /** `format_task_list`: "id: task" for a 2-tuple and the text alone for a 1-tuple. */
  function FormatEntry(e: Entry): string {
    match e
    case Pair(id, desc) => id + ": " + desc
    case Single(desc) => desc
  }

  function FormatTaskList(entries: seq<Entry>): (r: seq<string>)
    ensures |r| == |entries|
    ensures forall k :: 0 <= k < |r| ==> r[k] == FormatEntry(entries[k])
  {
    if entries == [] then [] else [FormatEntry(entries[0])] + FormatTaskList(entries[1..])
  }

  /**
   * A formatted line of a 2-tuple is the identifier, the separator ": " and the
   * description; a 1-tuple's line is the description alone.
   */
  lemma FormattedLineShowsEntry(entries: seq<Entry>, k: nat)
    requires k < |entries|
    ensures var line := FormatTaskList(entries)[k];
      var e := entries[k];
      && |e.desc| <= |line|
      && line[|line| - |e.desc|..] == e.desc
      && (e.Pair? ==>
            && |line| == |e.id| + 2 + |e.desc|
            && line[..|e.id|] == e.id
            && line[|e.id|..|e.id| + 2] == ": ")
      && (e.Single? ==> line == e.desc)
  {
    var e := entries[k];
    var line := FormatEntry(e);
    if e.Pair? {
      assert line == e.id + ": " + e.desc;
      assert line[|line| - |e.desc|..] == e.desc;
      assert line[|e.id|..|e.id| + 2] == ": ";
    }
  }

  // ---------------------------------------------------------------------
  // Uniform trees: the leaf count is the product of the branching factors.
  // ---------------------------------------------------------------------

  /** Every node at depth `d` has `factors[d]` children, and all leaves lie at depth `|factors|`. */
  predicate Uniform(plan: Plan, factors: seq<nat>)
    decreases plan
  {
    if factors == [] then plan.Operable?
    else
      && plan.Decompose?
      && |plan.subtasks| == factors[0]
      && forall k :: 0 <= k < |plan.subtasks| ==> Uniform(plan.subtasks[k].plan, factors[1..])
  }

  function Product(factors: seq<nat>): nat {
    if factors == [] then 1 else factors[0] * Product(factors[1..])
  }

  lemma {:induction false} UniformLeafCount(plan: Plan, factors: seq<nat>)
    requires Uniform(plan, factors)
    ensures LeafCount(plan) == Product(factors)
    decreases plan, 1, 0
  {
    if factors != [] {
      UniformLeafCountFrom(plan, factors, 0);
    }
  }

  lemma {:induction false} UniformLeafCountFrom(plan: Plan, factors: seq<nat>, k: nat)
    requires factors != [] && Uniform(plan, factors) && k <= |plan.subtasks|
    ensures LeafCountFrom(plan, k) == (|plan.subtasks| - k) * Product(factors[1..])
    decreases plan, 0, |plan.subtasks| - k
  {
    if k < |plan.subtasks| {
      UniformLeafCount(plan.subtasks[k].plan, factors[1..]);
      UniformLeafCountFrom(plan, factors, k + 1);
    }
  }
}

=== FILE: execute_tasks.dfy ===
/**
 * The execution loop `execute_tasks` of src/main.py as a state machine over
 * (task list, cursor, status ledger).
 *
 * `execute_single_task` is an oracle: each call yields success, plain failure,
 * or a raised error. The re-decomposition at retry exhaustion calls the
 * decomposition oracle again; its answer travels with the failing attempt
 * (`Unsuccessful(replan)`) and is consulted only when that failure exhausts the
 * budget. The loop need not terminate, so `Run` consumes a finite stream of
 * attempt answers and stops when it runs out.
 */
module Execution {
  import opened TaskIds
  import opened TaskTree
  import opened TaskStatus

  /** What re-running `recursive_task_breakdown(task, task_id)` yields. */
  datatype Replan = Replanned(plan: Plan) | ReplanRaised(error: string)

  /** One answer of `execute_single_task(task, task_id)`. */
  datatype Attempt = Succeeded | Unsuccessful(replan: Replan) | Raised(error: string)

  /** A recorded `send_notification(recipient_email, subject, message)` call. */
  datatype Notice = Notice(recipient: string, subject: string, message: string)

  function FailureNotice(recipient: string, id: string, error: string): Notice {
    Notice(recipient, "Task " + id + " Failure", "Task " + id + " failed after maximum retries: " + error)
  }

  /**
   * The loop state: the working list `updated_task_list`, the cursor `i`, the
   * ledger, the notifications sent so far, and whether the inner retry loop
   * for `tasks[cursor]` is running (its entry has been initialised).
   */
  datatype Engine = Engine(tasks: seq<Entry>, cursor: nat, ledger: Ledger<string>, notices: seq<Notice>, active: bool)

  /** The retry loop is running on a 2-tuple at the cursor. */
  predicate Ready(e: Engine) {
    e.active && e.cursor < |e.tasks| && e.tasks[e.cursor].Pair?
  }

  /** What holds between any two steps. */
  predicate Valid(e: Engine) {
    && e.cursor <= |e.tasks|
    && Consistent(e.ledger)
    && (e.active ==> Ready(e) && e.tasks[e.cursor].id in e.ledger.status)
  }

  /** Every identifier other than `id` keeps its status and retry count. */
  ghost predicate Untouched(before: Ledger<string>, after: Ledger<string>, id: string) {
    forall k :: k != id ==>
      GetTaskStatus(after, k) == GetTaskStatus(before, k) && GetRetryCount(after, k) == GetRetryCount(before, k)
  }

  /** `execute_tasks(task_list, execution_status)` before its first iteration. */
  function Start(tasks: seq<Entry>, ledger: Ledger<string>): (e: Engine)
    requires Consistent(ledger)
    ensures Valid(e) && e.tasks == tasks && e.cursor == 0 && !e.active
    ensures e.ledger == ledger && e.notices == []
  {
    Engine(tasks, 0, ledger, [], false)
  }

  /** Replaces entry `i` by `news`, keeping everything else in order. */
  function Splice(tasks: seq<Entry>, i: nat, news: seq<Entry>): (r: seq<Entry>)
    requires i < |tasks|
    ensures |r| == |tasks| - 1 + |news|
    ensures forall k :: 0 <= k < i ==> r[k] == tasks[k]
    ensures forall k :: 0 <= k < |news| ==> r[i + k] == news[k]
    ensures forall k :: i + 1 <= k < |tasks| ==> r[k - 1 + |news|] == tasks[k]
  {
    tasks[..i] + news + tasks[i + 1..]
  }

  /** The splice as the source performs it: `pop(i)`, then `insert(i + j, news[j])` for each j. */
  method SpliceInPlace(tasks: seq<Entry>, i: nat, news: seq<Entry>) returns (r: seq<Entry>)
    requires i < |tasks|
    ensures r == Splice(tasks, i, news)
  {
    r := tasks[..i] + tasks[i + 1..];
    var j := 0;
    while j < |news|
      invariant 0 <= j <= |news|
      invariant r == tasks[..i] + news[..j] + tasks[i + 1..]
    {
      assert r[..i + j] == tasks[..i] + news[..j];
      assert r[i + j..] == tasks[i + 1..];
      r := r[..i + j] + [news[j]] + r[i + j..];
      assert news[..j + 1] == news[..j] + [news[j]];
      j := j + 1;
    }
    assert news[..|news|] == news;
  }

  /**
   * `execute_tasks`, head of the outer loop: unpack the entry at the cursor and
   * `initialize_task` its identifier.
   */
  function Enter(e: Engine): (r: Engine)
    requires Valid(e) && !e.active && e.cursor < |e.tasks| && e.tasks[e.cursor].Pair?
    ensures Valid(r) && Ready(r)
    ensures r.tasks == e.tasks && r.cursor == e.cursor && r.notices == e.notices
    ensures var id := e.tasks[e.cursor].id;
      && GetTaskStatus(r.ledger, id) == Pending && GetRetryCount(r.ledger, id) == 0
      && Untouched(e.ledger, r.ledger, id)
  {
    e.(ledger := Initialize(e.ledger, e.tasks[e.cursor].id), active := true)
  }

  /**
   * The `except` branch: status "failed", one retry counted; within budget the
   * same task is tried again, otherwise one notification is sent and the
   * cursor moves on with the list left as it is.
   */
  function OnError(e: Engine, recipient: string, error: string): (r: Engine)
    requires Valid(e) && e.active
    ensures Valid(r)
    ensures var id := e.tasks[e.cursor].id;
      && r.tasks == e.tasks
      && GetTaskStatus(r.ledger, id) == Failed
      && GetRetryCount(r.ledger, id) == GetRetryCount(e.ledger, id) + 1
      && Untouched(e.ledger, r.ledger, id)
      && (GetRetryCount(e.ledger, id) < MaxRetries ==>
            r.active && r.cursor == e.cursor && r.notices == e.notices)
      && (GetRetryCount(e.ledger, id) >= MaxRetries ==>
            !r.active && r.cursor == e.cursor + 1
            && r.notices == e.notices + [FailureNotice(recipient, id, error)])
  {
    var id := e.tasks[e.cursor].id;
    var step := IncrementRetry(UpdateStatus(e.ledger, id, Failed), id);
    if step.0 then e.(ledger := step.1)
    else
      e.(ledger := step.1, notices := e.notices + [FailureNotice(recipient, id, error)],
         cursor := e.cursor + 1, active := false)
  }

  /** One pass of the inner `while True` loop: one call of `execute_single_task`. */
  function AttemptStep(e: Engine, recipient: string, a: Attempt): (r: Engine)
    requires Valid(e) && e.active
    ensures Valid(r)
    ensures r.cursor >= e.cursor
    ensures r.tasks[..e.cursor] == e.tasks[..e.cursor]
    ensures |r.notices| >= |e.notices| && r.notices[..|e.notices|] == e.notices
    ensures var id := e.tasks[e.cursor].id;
      var retries := GetRetryCount(e.ledger, id);
      && Untouched(e.ledger, r.ledger, id)
      && (a.Succeeded? ==>
            r.tasks == e.tasks && r.cursor == e.cursor + 1 && !r.active
            && r.notices == e.notices && GetTaskStatus(r.ledger, id) == Completed
            && GetRetryCount(r.ledger, id) == retries)
      && (a.Raised? || (a.Unsuccessful? && (retries < MaxRetries || a.replan.Replanned?)) ==>
            GetRetryCount(r.ledger, id) == retries + 1)
      && (a.Unsuccessful? && retries >= MaxRetries && a.replan.ReplanRaised? ==>
            GetRetryCount(r.ledger, id) == retries + 2 && GetTaskStatus(r.ledger, id) == Failed)
      && (a.Unsuccessful? && a.replan.Replanned? ==>
            GetTaskStatus(r.ledger, id) == GetTaskStatus(e.ledger, id))
      && (a.Unsuccessful? && retries < MaxRetries ==>
            r.tasks == e.tasks && r.cursor == e.cursor && r.active && r.notices == e.notices
            && GetTaskStatus(r.ledger, id) == GetTaskStatus(e.ledger, id))
      && (a.Unsuccessful? && retries >= MaxRetries && a.replan.Replanned? ==>
            r.tasks == Splice(e.tasks, e.cursor, Breakdown(e.tasks[e.cursor].desc, a.replan.plan, id))
            && r.cursor == e.cursor && !r.active && r.notices == e.notices)
      && (a.Unsuccessful? && retries >= MaxRetries && a.replan.ReplanRaised? ==>
            r.tasks == e.tasks && r.cursor == e.cursor + 1 && !r.active
            && r.notices == e.notices + [FailureNotice(recipient, id, a.replan.error)])
      && (a.Raised? ==>
            r.tasks == e.tasks && GetTaskStatus(r.ledger, id) == Failed
            && (retries < MaxRetries ==> r.cursor == e.cursor && r.active && r.notices == e.notices)
            && (retries >= MaxRetries ==>
                  r.cursor == e.cursor + 1 && !r.active
                  && r.notices == e.notices + [FailureNotice(recipient, id, a.error)]))
  {
    var id := e.tasks[e.cursor].id;
    match a
    case Succeeded =>
      e.(ledger := UpdateStatus(e.ledger, id, Completed), cursor := e.cursor + 1, active := false)
    case Raised(error) =>
      OnError(e, recipient, error)
    case Unsuccessful(replan) =>
      var step := IncrementRetry(e.ledger, id);
      if step.0 then e.(ledger := step.1)
      else
        match replan
        case Replanned(plan) =>
          var news := Breakdown(e.tasks[e.cursor].desc, plan, id);
          e.(tasks := Splice(e.tasks, e.cursor, news), ledger := step.1, active := false)
        case ReplanRaised(error) =>
          OnError(e.(ledger := step.1), recipient, error)
  }

  /** Why `Run` stopped. */
  datatype Halt =
    | Finished       // the cursor reached the end of the list
    | Unpackable     // a 1-tuple at the cursor: `task_id, task = ...` raises
    | OutOfAnswers   // the oracle stream ended while a task was being retried

  datatype Outcome = Outcome(halt: Halt, final: Engine)

  /**
   * Runs the loop, consuming one answer per call of `execute_single_task`.
   * The list before the cursor never changes, the cursor never moves back,
   * and notifications are only appended.
   */
  function Run(e: Engine, recipient: string, answers: seq<Attempt>): (r: Outcome)
    requires Valid(e)
    ensures Valid(r.final)
    ensures r.final.cursor >= e.cursor
    ensures r.final.tasks[..e.cursor] == e.tasks[..e.cursor]
    ensures |r.final.notices| >= |e.notices| && r.final.notices[..|e.notices|] == e.notices
    ensures r.halt.Finished? ==> !r.final.active && r.final.cursor == |r.final.tasks|
    ensures r.halt.Unpackable? ==> !r.final.active && r.final.cursor < |r.final.tasks| && r.final.tasks[r.final.cursor].Single?
    ensures r.halt.OutOfAnswers? ==> Ready(r.final)
    decreases |answers|, if e.active then 0 else 1
  {
    if !e.active then
      if e.cursor >= |e.tasks| then Outcome(Finished, e)
      else if e.tasks[e.cursor].Single? then Outcome(Unpackable, e)
      else Run(Enter(e), recipient, answers)
    else if answers == [] then Outcome(OutOfAnswers, e)
    else Run(AttemptStep(e, recipient, answers[0]), recipient, answers[1..])
  }

  // ---------------------------------------------------------------------
  // Properties of runs.
  // ---------------------------------------------------------------------

  /** Splicing in a breakdown of the replaced entry keeps identifiers distinct and unrelated. */
  lemma SpliceKeepsAntichain(tasks: seq<Entry>, i: nat, news: seq<Entry>)
    requires i < |tasks| && Antichain(tasks)
    requires Antichain(news) && AllBelow(tasks[i].id, news)
    ensures Antichain(Splice(tasks, i, news))
  {
    var r := Splice(tasks, i, news);
    var n := |news|;
    var x := tasks[i].id;
    assert AllPaired(r) by {
      forall k | 0 <= k < |r|
        ensures r[k].Pair? && r[k].id != ""
      {
        if k >= i + n {
          assert r[k] == tasks[k + 1 - n];
        }
      }
    }
    forall j, k | 0 <= j < |r| && 0 <= k < |r| && j != k
      ensures Incomparable(r[j].id, r[k].id)
    {
      var oj := if j < i then j else j + 1 - n;
      var ok := if k < i then k else k + 1 - n;
      var inJ := i <= j < i + n;
      var inK := i <= k < i + n;
      if !inJ && !inK {
        assert r[j] == tasks[oj] && r[k] == tasks[ok];
      } else if inJ && !inK {
        assert r[k] == tasks[ok] && ok != i;
        BelowIncomparable(x, r[k].id, r[j].id, r[k].id);
      } else if !inJ && inK {
        assert r[j] == tasks[oj] && oj != i;
        BelowIncomparable(x, r[j].id, r[k].id, r[j].id);
      } else {
        assert r[j] == news[j - i] && r[k] == news[k - i];
      }
    }
  }

  lemma StepKeepsAntichain(e: Engine, recipient: string, a: Attempt)
    requires Valid(e) && e.active && Antichain(e.tasks)
    ensures Antichain(AttemptStep(e, recipient, a).tasks)
  {
    var id := e.tasks[e.cursor].id;
    if a.Unsuccessful? && GetRetryCount(e.ledger, id) >= MaxRetries && a.replan.Replanned? {
      BreakdownIdsDistinct(e.tasks[e.cursor].desc, a.replan.plan, id);
      SpliceKeepsAntichain(e.tasks, e.cursor, Breakdown(e.tasks[e.cursor].desc, a.replan.plan, id));
    }
  }

  /**
   * A list of 2-tuples with distinct, unrelated identifiers stays one through
   * any number of splices, so the unpacking at the head of the loop never
   * meets a 1-tuple.
   */
  lemma {:induction false} RunKeepsAntichain(e: Engine, recipient: string, answers: seq<Attempt>)
    requires Valid(e) && Antichain(e.tasks)
    ensures Antichain(Run(e, recipient, answers).final.tasks)
    ensures !Run(e, recipient, answers).halt.Unpackable?
    decreases |answers|, if e.active then 0 else 1
  {
    if !e.active {
      if e.cursor < |e.tasks| {
        RunKeepsAntichain(Enter(e), recipient, answers);
      }
    } else if answers != [] {
      StepKeepsAntichain(e, recipient, answers[0]);
      RunKeepsAntichain(AttemptStep(e, recipient, answers[0]), recipient, answers[1..]);
    }
  }

  /**
   * The list built by `process_tasks`, run with a fresh ledger, never halts
   * on an unpackable entry, and its identifiers stay pairwise distinct.
   */
  lemma ExecuteProcessedTasks(initial: seq<Subtask>, recipient: string, answers: seq<Attempt>)
    ensures var r := Run(Start(Children(Decompose(initial), "", 0), Fresh()), recipient, answers);
      !r.halt.Unpackable? && Antichain(r.final.tasks)
  {
    ChildrenIdsDistinct(Decompose(initial), "", 0);
    RunKeepsAntichain(Start(Children(Decompose(initial), "", 0), Fresh()), recipient, answers);
  }

  /** `successful_tasks_count` never exceeds the number of identifiers ever initialised. */
  lemma CompletedAtMostInitialised(e: Engine, recipient: string, answers: seq<Attempt>)
    requires Valid(e)
    ensures var l := Run(e, recipient, answers).final.ledger;
      SuccessfulTasksCount(l) <= |l.retries.Keys|
  {
  }

  /**
   * A task whose every attempt fails is attempted exactly four times: after
   * each of the first three the list and the cursor are unchanged and the
   * retry loop continues; the fourth ends it, by a splice at the cursor for a
   * plain failure and by a notification and a step forward for a raised error.
   */
  lemma FailingTaskGetsFourAttempts(e: Engine, recipient: string, a1: Attempt, a2: Attempt, a3: Attempt, a4: Attempt)
    requires Valid(e) && !e.active && e.cursor < |e.tasks| && e.tasks[e.cursor].Pair?
    requires !a1.Succeeded? && !a2.Succeeded? && !a3.Succeeded? && !a4.Succeeded?
    ensures var id := e.tasks[e.cursor].id;
      var s0 := Enter(e);
      var s1 := AttemptStep(s0, recipient, a1);
      var s2 := AttemptStep(s1, recipient, a2);
      var s3 := AttemptStep(s2, recipient, a3);
      var s4 := AttemptStep(s3, recipient, a4);
      && s1.active && s2.active && s3.active && !s4.active
      && s1.tasks == s2.tasks == s3.tasks == e.tasks
      && s1.cursor == s2.cursor == s3.cursor == e.cursor
      && s1.notices == s2.notices == s3.notices == e.notices
      && GetRetryCount(s3.ledger, id) == MaxRetries
      && (a4.Raised? || a4.replan.ReplanRaised? ==>
            s4.tasks == e.tasks && s4.cursor == e.cursor + 1 && |s4.notices| == |e.notices| + 1)
      && (a4.Unsuccessful? && a4.replan.Replanned? ==>
            s4.cursor == e.cursor && s4.notices == e.notices
            && s4.tasks == Splice(e.tasks, e.cursor, Breakdown(e.tasks[e.cursor].desc, a4.replan.plan, id)))
  {
  }

  /**
   * When the oracle now judges the failed task operable, the splice puts the
   * same entry back: the identifier is reused and the task is retried with a
   * fresh budget rather than retired.
   */
  lemma OperableReplanReinstatesTask(e: Engine, recipient: string)
    requires Valid(e) && e.active && e.tasks[e.cursor].id != ""
    requires GetRetryCount(e.ledger, e.tasks[e.cursor].id) >= MaxRetries
    ensures var r := AttemptStep(e, recipient, Unsuccessful(Replanned(Operable)));
      r.tasks == e.tasks && r.cursor == e.cursor && !r.active
  {
    var t := e.tasks[e.cursor];
    assert Breakdown(t.desc, Operable, t.id) == [t];
    assert Splice(e.tasks, e.cursor, [t]) == e.tasks;
  }

  // ---------------------------------------------------------------------
  // Completed tasks and the end-of-run report.
  // ---------------------------------------------------------------------

  /** The identifiers of the 2-tuples among the first `c` entries. */
  function PrefixIds(tasks: seq<Entry>, c: nat): (r: set<string>)
    requires c <= |tasks|
    ensures |r| <= c
    ensures forall j :: 0 <= j < c && tasks[j].Pair? ==> tasks[j].id in r
    ensures forall x :: x in r ==> exists j :: 0 <= j < c && tasks[j].Pair? && tasks[j].id == x
  {
    if c == 0 then {}
    else
      var earlier := PrefixIds(tasks, c - 1);
      if tasks[c - 1].Pair? then earlier + {tasks[c - 1].id} else earlier
  }

  /** Every identifier the ledger calls "completed" belongs to an entry the cursor has passed. */
  predicate Accounted(e: Engine)
    requires e.cursor <= |e.tasks|
  {
    CompletedIds(e.ledger.status) <= PrefixIds(e.tasks, e.cursor)
  }

  lemma PrefixIdsGrow(tasks: seq<Entry>, c: nat, tasks': seq<Entry>, c': nat)
    requires c <= c' <= |tasks'| && c <= |tasks| && tasks'[..c] == tasks[..c]
    ensures PrefixIds(tasks, c) <= PrefixIds(tasks', c')
  {
    forall x | x in PrefixIds(tasks, c)
      ensures x in PrefixIds(tasks', c')
    {
      var j :| 0 <= j < c && tasks[j].Pair? && tasks[j].id == x;
      assert tasks'[..c][j] == tasks[..c][j];
    }
  }

  lemma EnterKeepsAccounted(e: Engine)
    requires Valid(e) && !e.active && e.cursor < |e.tasks| && e.tasks[e.cursor].Pair? && Accounted(e)
    ensures Accounted(Enter(e))
  {
    var r := Enter(e);
    assert CompletedIds(r.ledger.status) <= CompletedIds(e.ledger.status);
  }

  lemma StepKeepsAccounted(e: Engine, recipient: string, a: Attempt)
    requires Valid(e) && e.active && Accounted(e)
    ensures Accounted(AttemptStep(e, recipient, a))
  {
    var r := AttemptStep(e, recipient, a);
    var id := e.tasks[e.cursor].id;
    PrefixIdsGrow(e.tasks, e.cursor, r.tasks, r.cursor);
    if a.Succeeded? {
      assert CompletedIds(r.ledger.status) <= CompletedIds(e.ledger.status) + {id};
      assert id in PrefixIds(r.tasks, r.cursor);
    } else {
      assert CompletedIds(r.ledger.status) <= CompletedIds(e.ledger.status);
    }
  }

  /**
   * Along any run that starts with nothing marked completed, the completed
   * identifiers are among the entries already passed, so their number never
   * exceeds the cursor, let alone the length of the working list.
   */
  lemma {:induction false} RunKeepsAccounted(e: Engine, recipient: string, answers: seq<Attempt>)
    requires Valid(e) && Accounted(e)
    ensures var f := Run(e, recipient, answers).final;
      Accounted(f) && SuccessfulTasksCount(f.ledger) <= f.cursor <= |f.tasks|
    decreases |answers|, if e.active then 0 else 1
  {
    var f := Run(e, recipient, answers).final;
    if !e.active {
      if e.cursor < |e.tasks| && e.tasks[e.cursor].Pair? {
        EnterKeepsAccounted(e);
        RunKeepsAccounted(Enter(e), recipient, answers);
      } else {
        SubsetCard(CompletedIds(f.ledger.status), PrefixIds(f.tasks, f.cursor));
      }
    } else if answers != [] {
      StepKeepsAccounted(e, recipient, answers[0]);
      RunKeepsAccounted(AttemptStep(e, recipient, answers[0]), recipient, answers[1..]);
    } else {
      SubsetCard(CompletedIds(f.ledger.status), PrefixIds(f.tasks, f.cursor));
    }
  }

  /** The "x/y tasks successful" figures of the end-of-run log line. */
  datatype Report = Report(successful: nat, total: nat)

  /** As written: the total is the length of the list handed to `execute_tasks`. */
  function ReportAsWritten(initial: seq<Entry>, r: Outcome): Report
  {
    Report(SuccessfulTasksCount(r.final.ledger), |initial|)
  }

  /** Corrected: the total is the length of the list `execute_tasks` returns. */
  function FinalReport(r: Outcome): (rep: Report)
    requires Valid(r.final) && Accounted(r.final)
    ensures rep.successful <= rep.total
  {
    SubsetCard(CompletedIds(r.final.ledger.status), PrefixIds(r.final.tasks, r.final.cursor));
    Report(SuccessfulTasksCount(r.final.ledger), |r.final.tasks|)
  }

  /** With the corrected total, a run from a fresh ledger never reports more successes than tasks. */
  lemma FinalReportBounded(tasks: seq<Entry>, recipient: string, answers: seq<Attempt>)
    ensures var r := Run(Start(tasks, Fresh()), recipient, answers);
      Valid(r.final) && Accounted(r.final) && FinalReport(r).successful <= FinalReport(r).total
  {
    assert CompletedIds(Fresh<string>().status) == {};
    RunKeepsAccounted(Start(tasks, Fresh()), recipient, answers);
  }

  /** The first four answers of the counterexample: four plain failures, then the splice. */
  lemma OvercountSplice(fail: Attempt)
    requires fail == Unsuccessful(Replanned(Decompose([Subtask("a", Operable), Subtask("b", Operable)])))
    ensures var e0 := Start([Pair("1", "t")], Fresh());
      var s4 := AttemptStep(AttemptStep(AttemptStep(AttemptStep(Enter(e0), "", fail), "", fail), "", fail), "", fail);
      && s4.tasks == [Pair("1-1", "a"), Pair("1-2", "b")] && s4.cursor == 0 && !s4.active
      && CompletedIds(s4.ledger.status) == {}
  {
    var e0 := Start([Pair("1", "t")], Fresh());
    FailingTaskGetsFourAttempts(e0, "", fail, fail, fail, fail);
    var s0 := Enter(e0);
    var s4 := AttemptStep(AttemptStep(AttemptStep(AttemptStep(s0, "", fail), "", fail), "", fail), "", fail);
    assert ChildId("1", 1) == "1-1" && ChildId("1", 2) == "1-2";
    assert Breakdown("t", fail.replan.plan, "1") == [Pair("1-1", "a"), Pair("1-2", "b")];
    assert s4.ledger.status.Keys == {"1"};
    assert GetTaskStatus(s4.ledger, "1") == Pending;
  }

  /** The last two answers of the counterexample: both subtasks succeed. */
  lemma OvercountSuccesses(s4: Engine)
    requires Valid(s4) && s4.tasks == [Pair("1-1", "a"), Pair("1-2", "b")] && s4.cursor == 0 && !s4.active
    requires CompletedIds(s4.ledger.status) == {}
    ensures CompletedIds(Run(s4, "", [Succeeded, Succeeded]).final.ledger.status) == {"1-1", "1-2"}
  {
    var s5 := AttemptStep(Enter(s4), "", Succeeded);
    var s6 := AttemptStep(Enter(s5), "", Succeeded);
    assert Run(s4, "", [Succeeded, Succeeded]) == Run(s5, "", [Succeeded]);
    assert [Succeeded][1..] == [];
    assert Run(s5, "", [Succeeded]) == Run(s6, "", []);
    assert CompletedIds(s5.ledger.status) == {"1-1"};
    assert CompletedIds(s6.ledger.status) == {"1-1", "1-2"};
  }

  lemma RunEnters(e: Engine, recipient: string, answers: seq<Attempt>)
    requires Valid(e) && !e.active && e.cursor < |e.tasks| && e.tasks[e.cursor].Pair?
    ensures Run(e, recipient, answers) == Run(Enter(e), recipient, answers)
  {
  }

  lemma RunAttempts(e: Engine, recipient: string, a: Attempt, rest: seq<Attempt>)
    requires Valid(e) && e.active
    ensures Run(e, recipient, [a] + rest) == Run(AttemptStep(e, recipient, a), recipient, rest)
  {
    assert ([a] + rest)[1..] == rest;
  }

  /** The first four answers of the counterexample leave the run at the spliced list. */
  lemma OvercountPrefix(fail: Attempt, rest: seq<Attempt>)
    requires fail == Unsuccessful(Replanned(Decompose([Subtask("a", Operable), Subtask("b", Operable)])))
    ensures var e0 := Start([Pair("1", "t")], Fresh());
      var s4 := AttemptStep(AttemptStep(AttemptStep(AttemptStep(Enter(e0), "", fail), "", fail), "", fail), "", fail);
      Run(e0, "", [fail, fail, fail, fail] + rest) == Run(s4, "", rest)
  {
    var e0 := Start([Pair("1", "t")], Fresh());
    FailingTaskGetsFourAttempts(e0, "", fail, fail, fail, fail);
    var s0 := Enter(e0);
    var s1 := AttemptStep(s0, "", fail);
    var s2 := AttemptStep(s1, "", fail);
    var s3 := AttemptStep(s2, "", fail);
    var r3 := [fail] + rest;
    var r2 := [fail] + r3;
    var r1 := [fail] + r2;
    var r0 := [fail] + r1;
    assert r0 == [fail, fail, fail, fail] + rest;
    RunEnters(e0, "", r0);
    RunAttempts(s0, "", fail, r1);
    RunAttempts(s1, "", fail, r2);
    RunAttempts(s2, "", fail, r3);
    RunAttempts(s3, "", fail, rest);
  }

  /**
   * As written, one task that fails four times and is replaced by two
   * subtasks that both succeed is reported as "2/1 tasks successful".
   */
  lemma ReportAsWrittenOvercounts()
    ensures var initial := [Pair("1", "t")];
      var fail := Unsuccessful(Replanned(Decompose([Subtask("a", Operable), Subtask("b", Operable)])));
      var r := Run(Start(initial, Fresh()), "", [fail, fail, fail, fail, Succeeded, Succeeded]);
      ReportAsWritten(initial, r) == Report(2, 1)
  {
    var fail := Unsuccessful(Replanned(Decompose([Subtask("a", Operable), Subtask("b", Operable)])));
    var e0 := Start([Pair("1", "t")], Fresh());
    var s4 := AttemptStep(AttemptStep(AttemptStep(AttemptStep(Enter(e0), "", fail), "", fail), "", fail), "", fail);
    OvercountPrefix(fail, [Succeeded, Succeeded]);
    assert [fail, fail, fail, fail] + [Succeeded, Succeeded] == [fail, fail, fail, fail, Succeeded, Succeeded];
    OvercountSplice(fail);
    OvercountSuccesses(s4);
  }
}

=== FILE: script_generator.dfy ===
/**
 * `ScriptGenerator` (src/llm/script_generator.py): wraps the code of a model
 * reply in the fixed header of a supported script language.
 */
module ScriptGenerator {
  import opened Wrappers

  const SupportedTypes: set<string> := {"python", "batch", "shell"}

  /** The second header lines carry these titles. */
  const PythonTitle: string := "Generated Python Script"
  const BatchTitle: string := "Generated Batch Script"
  const ShellTitle: string := "Generated Shell Script"

  const PythonHeader: string := "#!/usr/bin/env python3\n" + "# " + PythonTitle + "\n"
  const BatchHeader: string := "@echo off\n" + "REM " + BatchTitle + "\n"
  const ShellHeader: string := "#!/bin/bash\n" + "# " + ShellTitle + "\n"

  /** `llm_response.get('code', '')`. */
  function CodeOf(response: map<string, string>): string {
    if "code" in response then response["code"] else ""
  }

  function PythonScript(response: map<string, string>): string {
    PythonHeader + CodeOf(response) + "\n"
  }

  function BatchScript(response: map<string, string>): string {
    BatchHeader + CodeOf(response) + "\n"
  }

  function ShellScript(response: map<string, string>): string {
    ShellHeader + CodeOf(response) + "\n"
  }

  /** The fixed two-line header of each supported type. */
  function Header(scriptType: string): string
    requires scriptType in SupportedTypes
  {
    if scriptType == "python" then PythonHeader
    else if scriptType == "batch" then BatchHeader
    else ShellHeader
  }

  /** `generate_script`: a `ValueError` for an unsupported type, else the type's template. */
  function GenerateScript(response: map<string, string>, scriptType: string): (r: Result<string, string>)
    ensures r.Failure? <==> scriptType !in SupportedTypes
    ensures r.Failure? ==> r.error == "Unsupported script type: " + scriptType
    ensures r.Success? ==>
      var h := Header(scriptType);
      && |r.value| == |h| + |CodeOf(response)| + 1
      && r.value[..|h|] == h
      && r.value[|h|..|r.value| - 1] == CodeOf(response)
      && r.value[|r.value| - 1] == '\n'
  {
    if scriptType !in SupportedTypes then Failure("Unsupported script type: " + scriptType)
    else if scriptType == "python" then Success(PythonScript(response))
    else if scriptType == "batch" then Success(BatchScript(response))
    else Success(ShellScript(response))
  }

  /** Strips a type's header and the trailing newline, if both are there. */
  function ExtractCode(scriptType: string, script: string): (r: Option<string>)
    requires scriptType in SupportedTypes
    ensures r.Some? ==> Header(scriptType) + r.value + "\n" == script
  {
    var h := Header(scriptType);
    if |script| > |h| && script[..|h|] == h && script[|script| - 1] == '\n' then
      assert script == h + script[|h|..|script| - 1] + "\n";
      Some(script[|h|..|script| - 1])
    else None
  }

  /** The code appears verbatim: stripping the template gives it back. */
  lemma CodeRoundTrip(response: map<string, string>, scriptType: string)
    requires scriptType in SupportedTypes
    ensures ExtractCode(scriptType, GenerateScript(response, scriptType).value) == Some(CodeOf(response))
  {
  }

  /** The script type that produced a script, read back from its header. */
  function DetectType(script: string): (r: Option<string>)
    ensures r.Some? ==>
      && r.value in SupportedTypes
      && |Header(r.value)| <= |script|
      && script[..|Header(r.value)|] == Header(r.value)
  {
    if |script| >= |PythonHeader| && script[..|PythonHeader|] == PythonHeader then Some("python")
    else if |script| >= |BatchHeader| && script[..|BatchHeader|] == BatchHeader then Some("batch")
    else if |script| >= |ShellHeader| && script[..|ShellHeader|] == ShellHeader then Some("shell")
    else None
  }

  /** The three headers differ within their first four characters, so a script tells its type. */
  lemma TypeRoundTrip(response: map<string, string>, scriptType: string)
    requires scriptType in SupportedTypes
    ensures DetectType(GenerateScript(response, scriptType).value) == Some(scriptType)
  {
    var s := GenerateScript(response, scriptType).value;
    var h := Header(scriptType);
    assert s[..|h|] == h;
    assert s[..4] == h[..4];
    assert PythonHeader[..4] == "#!/u";
    assert BatchHeader[..4] == "@ech";
    assert ShellHeader[..4] == "#!/b";
    if scriptType != "python" && |s| >= |PythonHeader| {
      assert s[..|PythonHeader|][..4] == s[..4];
    }
    if scriptType == "shell" && |s| >= |BatchHeader| {
      assert s[..|BatchHeader|][..4] == s[..4];
    }
  }

  /** `s` has `sub` as a contiguous piece. */
  predicate Contains(s: string, sub: string) {
    exists i :: 0 <= i <= |s| && sub <= s[i..]
  }

  /** A python script made from a reply without a "code" key is the bare header, which names its kind. */
  lemma MissingCodeKeepsTitle()
    ensures GenerateScript(map[], "python") == Success(PythonHeader + "\n")
    ensures Contains(GenerateScript(map[], "python").value, PythonTitle)
  {
    var s := GenerateScript(map[], "python").value;
    var before := "#!/usr/bin/env python3\n" + "# ";
    assert s == before + PythonTitle + "\n" + "" + "\n";
    assert PythonTitle <= s[|before|..];
  }
}

=== FILE: task_ids.dfy ===
/**
 * Hierarchical task identifiers such as "2-2-1": the decimal, 1-based child
 * indices along a path of the decomposition tree, joined by dashes.
 */
module TaskIds {

  /** The character that separates the levels of an identifier. */
  const Dash: char := '-'

  predicate IsDigit(c: char) {
    '0' <= c <= '9'
  }

  predicate AllDigits(s: string) {
    forall k :: 0 <= k < |s| ==> IsDigit(s[k])
  }

  function DigitChar(d: nat): (c: char)
    requires d < 10
    ensures IsDigit(c)
  {
    (48 + d) as char
  }

  function DigitValue(c: char): (d: nat)
    requires IsDigit(c)
    ensures d < 10
  {
    c as int - 48
  }

  /** Python's `str(n)` for a non-negative integer. */
  function Dec(n: nat): (s: string)
    ensures |s| >= 1
    ensures AllDigits(s)
    ensures n < 10 <==> |s| == 1
  {
    if n < 10 then [DigitChar(n)] else Dec(n / 10) + [DigitChar(n % 10)]
  }

  /** Reads a string of decimal digits back as a number. */
  function ParseDec(s: string): nat
    requires AllDigits(s)
  {
    if |s| == 0 then 0 else ParseDec(s[..|s| - 1]) * 10 + DigitValue(s[|s| - 1])
  }

  /** `str` is undone by reading the digits back. */
  lemma {:induction false} ParseDecOfDec(n: nat)
    ensures ParseDec(Dec(n)) == n
  {
    var s := Dec(n);
    if n >= 10 {
      assert s[..|s| - 1] == Dec(n / 10);
      ParseDecOfDec(n / 10);
    }
  }

  /** Distinct indices are printed differently. */
  lemma DecInjective(m: nat, n: nat)
    requires m != n
    ensures Dec(m) != Dec(n)
  {
    ParseDecOfDec(m);
    ParseDecOfDec(n);
  }

  predicate DashFree(s: string) {
    forall k :: 0 <= k < |s| ==> s[k] != Dash
  }

  /**
   * The identifier given to child `i` (1-based) of the task with identifier
   * `parent`: `parent + "-" + str(i)`, or just `str(i)` under an empty parent.
   */
  function ChildId(parent: string, i: nat): (r: string)
    ensures r != ""
    ensures parent == "" ==> DashFree(r) && r == Dec(i)
    ensures parent != "" ==> IsAncestor(parent, r)
  {
    if parent != "" then parent + [Dash] + Dec(i) else Dec(i)
  }

  /** The identifier of the node reached by following `path` from the root. */
  function IdOf(path: seq<nat>): (r: string)
    ensures r == "" <==> path == []
  {
    if path == [] then "" else ChildId(IdOf(path[..|path| - 1]), path[|path| - 1])
  }

  lemma IdOfAppend(path: seq<nat>, i: nat)
    ensures IdOf(path + [i]) == ChildId(IdOf(path), i)
  {
    assert (path + [i])[..|path|] == path;
  }

  /** `a` names a strict ancestor of `b`: `b` starts with `a + "-"`. */
  predicate IsAncestor(a: string, b: string) {
    |a| < |b| && b[..|a|] == a && b[|a|] == Dash
  }

  /** `a` names `b` itself or one of its ancestors. */
  predicate Covers(a: string, b: string) {
    a == b || IsAncestor(a, b)
  }

  lemma {:induction false} CoversTransitive(a: string, b: string, c: string)
    requires Covers(a, b) && Covers(b, c)
    ensures Covers(a, c)
  {
    if a != b && b != c {
      assert c[..|b|] == b;
      assert c[..|a|] == b[..|a|];
      assert c[|a|] == b[|a|];
    }
  }

  /** Two identifiers covering a common one are themselves comparable. */
  lemma {:induction false} CoversComparable(a: string, b: string, c: string)
    requires Covers(a, c) && Covers(b, c)
    ensures Covers(a, b) || Covers(b, a)
  {
    if |a| == |b| {
      assert a == c[..|a|] && b == c[..|b|];
    } else if |a| < |b| {
      assert b[..|a|] == c[..|a|] == a;
      assert b[|a|] == c[|a|];
    } else {
      assert a[..|b|] == c[..|b|] == b;
      assert a[|b|] == c[|b|];
    }
  }

  /** Neither identifier covers the other. */
  predicate Incomparable(a: string, b: string) {
    !Covers(a, b) && !Covers(b, a)
  }

  /** Everything below two incomparable identifiers stays incomparable. */
  lemma BelowIncomparable(x: string, y: string, a: string, b: string)
    requires Incomparable(x, y)
    requires Covers(x, a) && Covers(y, b)
    ensures Incomparable(a, b)
  {
    if Covers(a, b) {
      CoversTransitive(x, a, b);
      CoversComparable(x, y, b);
    }
    if Covers(b, a) {
      CoversTransitive(y, b, a);
      CoversComparable(x, y, a);
    }
  }

  /** Siblings never cover one another. */
  lemma {:induction false} SiblingsIncomparable(parent: string, i: nat, j: nat)
    requires i != j
    ensures Incomparable(ChildId(parent, i), ChildId(parent, j))
  {
    var a, b := ChildId(parent, i), ChildId(parent, j);
    var p := if parent == "" then 0 else |parent| + 1;
    assert a[..p] == b[..p] && a[p..] == Dec(i) && b[p..] == Dec(j);
    DecInjective(i, j);
    assert a != b;
    if |a| < |b| && b[..|a|] == a {
      assert b[|a|] == b[p..][|a| - p];
    }
    if |b| < |a| && a[..|b|] == b {
      assert a[|b|] == a[p..][|b| - p];
    }
  }
}

=== FILE: task_manager.dfy ===
/**
 * `TaskManager` (src/task/task_manager.py): hands out sequential integer
 * identifiers, records them in a status ledger and queues the tasks. The
 * language-model call inside `_execute_task` is an oracle reply.
 */
module TaskManager {
  import opened Wrappers
  import opened TaskStatus
  import opened TaskQueue

  datatype Manager = Manager(ledger: Ledger<int>, queue: Queue)

  /** What the model returned to `_execute_task`: a reply dictionary, or an exception. */
  datatype Reply = Reply(fields: map<string, bool>) | Raises

  function NewManager(): (m: Manager)
    ensures Inv(m)
    ensures |m.ledger.status| == 0 && |m.ledger.retries| == 0 && IsEmpty(m.queue)
  {
    Manager(Fresh(), Empty())
  }

  /** The identifiers 1..n. */
  function IdRange(n: nat): (r: set<int>)
    ensures forall k :: k in r <==> 1 <= k <= n
    ensures |r| == n
  {
    if n == 0 then {} else IdRange(n - 1) + {n}
  }

  /**
   * The ledger knows exactly the identifiers 1..n it has handed out, and every
   * queued or in-process task is one of them.
   */
  predicate Inv(m: Manager) {
    && m.ledger.status.Keys == IdRange(|m.ledger.status|)
    && Consistent(m.ledger)
    && (forall k :: 0 <= k < |m.queue.pending| ==> m.queue.pending[k].id in m.ledger.status)
    && m.queue.processing <= m.ledger.status.Keys
  }

  /**
   * `create_task`: the new identifier is one more than the number of known
   * identifiers, starts "pending" and its task goes to the back of the queue.
   */
  function CreateTask(m: Manager, description: string): (r: (int, Manager))
    ensures r.0 == |m.ledger.status| + 1
    ensures GetTaskStatus(r.1.ledger, r.0) == Pending && GetRetryCount(r.1.ledger, r.0) == 0
    ensures forall k :: k != r.0 ==>
      GetTaskStatus(r.1.ledger, k) == GetTaskStatus(m.ledger, k) && GetRetryCount(r.1.ledger, k) == GetRetryCount(m.ledger, k)
    ensures r.1.queue == AddTask(m.queue, Task(r.0, description))
    ensures Inv(m) ==> r.0 !in m.ledger.status && Inv(r.1) && |r.1.ledger.status| == r.0
  {
    var id := |m.ledger.status| + 1;
    var r := (id, Manager(Initialize(m.ledger, id), AddTask(m.queue, Task(id, description))));
    if Inv(m) then
      assert r.1.ledger.status.Keys == IdRange(id);
      r
    else r
  }

  /** `create_task` for each description, in order; the identifiers handed out. */
  function CreateAll(m: Manager, descriptions: seq<string>): (seq<int>, Manager)
    decreases |descriptions|
  {
    if descriptions == [] then ([], m)
    else
      var first := CreateTask(m, descriptions[0]);
      var rest := CreateAll(first.1, descriptions[1..]);
      ([first.0] + rest.0, rest.1)
  }

  lemma {:induction false} CreateAllNumbers(m: Manager, descriptions: seq<string>)
    requires Inv(m)
    ensures var r := CreateAll(m, descriptions);
      && |r.0| == |descriptions|
      && (forall k :: 0 <= k < |r.0| ==> r.0[k] == |m.ledger.status| + k + 1)
      && Inv(r.1)
    decreases |descriptions|
  {
    if descriptions != [] {
      CreateAllNumbers(CreateTask(m, descriptions[0]).1, descriptions[1..]);
    }
  }

  /** From a new manager, successive `create_task` calls return 1, 2, 3, ... */
  lemma SequentialIds(descriptions: seq<string>)
    ensures var ids := CreateAll(NewManager(), descriptions).0;
      |ids| == |descriptions| && forall k :: 0 <= k < |ids| ==> ids[k] == k + 1
  {
    CreateAllNumbers(NewManager(), descriptions);
  }

  /** `_execute_task`: the reply's "success" field, False when absent or when the call raises. */
  function ExecuteTask(reply: Reply): bool {
    match reply
    case Raises => false
    case Reply(fields) => if "success" in fields then fields["success"] else false
  }

  /**
   * `process_next_task` (with `_execute_task` inlined): `None` and no change
   * when nothing is waiting; otherwise the front task is taken and run. A
   * raising call or a reply without "success" is a failure, not an exception.
   * On success only that task's status changes, to "completed", and only its
   * identifier leaves processing. A failed task stays in processing and the
   * ledger is untouched.
   */
  function ProcessNextTask(m: Manager, reply: Reply): (r: (Option<bool>, Manager))
    ensures m.queue.pending == [] ==> r.0 == None && r.1 == m
    ensures m.queue.pending != [] ==>
      var t := m.queue.pending[0];
      && r.0.Some?
      && r.1.queue.pending == m.queue.pending[1..]
      && (reply.Raises? ==> r.0 == Some(false))
      && (reply.Reply? && "success" !in reply.fields ==> r.0 == Some(false))
      && (reply.Reply? && "success" in reply.fields ==> r.0 == Some(reply.fields["success"]))
      && (r.0 == Some(true) ==>
            && GetTaskStatus(r.1.ledger, t.id) == Completed
            && (forall k :: k != t.id ==> GetTaskStatus(r.1.ledger, k) == GetTaskStatus(m.ledger, k))
            && r.1.ledger.retries == m.ledger.retries
            && t.id !in r.1.queue.processing
            && (forall k :: k != t.id ==> (k in r.1.queue.processing <==> k in m.queue.processing)))
      && (r.0 == Some(false) ==>
            && r.1.ledger == m.ledger
            && r.1.queue.processing == m.queue.processing + {t.id}
            && !IsEmpty(r.1.queue))
    ensures Inv(m) ==> Inv(r.1)
  {
    var next := GetNextTask(m.queue);
    match next.0
    case None => (None, m)
    case Some(t) =>
      var success := ExecuteTask(reply);
      if success then
        (Some(true), Manager(UpdateStatus(m.ledger, t.id, Completed), MarkCompleted(next.1, t.id)))
      else
        (Some(false), m.(queue := next.1))
  }
}

=== FILE: task_queue.dfy ===
/**
 * `TaskQueueManager` (src/task/task_queue.py): a FIFO queue of task records
 * and the set of identifiers handed out and not yet marked completed. The
 * thread-safe `queue.Queue` is used sequentially, so it is a sequence here.
 */
module TaskQueue {
  import opened Wrappers

  /** The task dictionary `{'id': ..., 'description': ...}`. */
  datatype Task = Task(id: int, description: string)

  datatype Queue = Queue(pending: seq<Task>, processing: set<int>)

  function Empty(): (q: Queue)
    ensures IsEmpty(q)
  {
    Queue([], {})
  }

  /** `is_empty`: nothing waiting and nothing being processed. */
  predicate IsEmpty(q: Queue) {
    |q.pending| == 0 && |q.processing| == 0
  }

  /** `add_task`: the task goes to the back. */
  function AddTask(q: Queue, t: Task): (r: Queue)
    ensures |r.pending| == |q.pending| + 1 && r.pending[|q.pending|] == t
    ensures r.pending[..|q.pending|] == q.pending
    ensures r.processing == q.processing
    ensures !IsEmpty(r)
  {
    Queue(q.pending + [t], q.processing)
  }

  /**
   * `get_next_task`: `None` and no change on an empty queue; otherwise the
   * front task, which leaves the queue and whose id joins `processing`.
   */
  function GetNextTask(q: Queue): (r: (Option<Task>, Queue))
    ensures q.pending == [] ==> r.0 == None && r.1 == q
    ensures q.pending != [] ==>
      && r.0 == Some(q.pending[0])
      && r.1.pending == q.pending[1..]
      && r.1.processing == q.processing + {q.pending[0].id}
      && !IsEmpty(r.1)
  {
    if q.pending == [] then (None, q)
    else
      var t := q.pending[0];
      (Some(t), Queue(q.pending[1..], q.processing + {t.id}))
  }

  /** `mark_completed`: drops `id` from `processing` if it is there. */
  function MarkCompleted(q: Queue, id: int): (r: Queue)
    ensures r.pending == q.pending
    ensures id !in r.processing
    ensures forall k :: k != id ==> (k in r.processing <==> k in q.processing)
    ensures id !in q.processing ==> r == q
  {
    if id in q.processing then Queue(q.pending, q.processing - {id}) else q
  }

  lemma MarkCompletedIdempotent(q: Queue, id: int)
    ensures MarkCompleted(MarkCompleted(q, id), id) == MarkCompleted(q, id)
  {
  }

  /** The identifiers of a list of tasks. */
  function Ids(ts: seq<Task>): set<int> {
    set k | 0 <= k < |ts| :: ts[k].id
  }

  /** `add_task` for each task of `ts`, in order. */
  function AddAll(q: Queue, ts: seq<Task>): Queue
    decreases |ts|
  {
    if ts == [] then q else AddAll(AddTask(q, ts[0]), ts[1..])
  }

  lemma {:induction false} AddAllAppends(q: Queue, ts: seq<Task>)
    ensures AddAll(q, ts).pending == q.pending + ts
    ensures AddAll(q, ts).processing == q.processing
    decreases |ts|
  {
    if ts != [] {
      AddAllAppends(AddTask(q, ts[0]), ts[1..]);
      assert q.pending + [ts[0]] + ts[1..] == q.pending + ts;
    }
  }

  /** `get_next_task` until it returns `None`: the tasks handed out, in order, and the final queue. */
  function DrainAll(q: Queue): (r: (seq<Task>, Queue))
    ensures r.0 == q.pending
    ensures r.1.pending == []
    ensures r.1.processing == q.processing + Ids(q.pending)
    decreases |q.pending|
  {
    var next := GetNextTask(q);
    match next.0
    case None => ([], next.1)
    case Some(t) =>
      var rest := DrainAll(next.1);
      assert Ids(q.pending) == {t.id} + Ids(q.pending[1..]) by {
        forall x | x in Ids(q.pending)
          ensures x in {t.id} + Ids(q.pending[1..])
        {
          var k :| 0 <= k < |q.pending| && q.pending[k].id == x;
          if k > 0 {
            assert q.pending[1..][k - 1].id == x;
          }
        }
      }
      ([t] + rest.0, rest.1)
  }

  /** `mark_completed` for each identifier of `ids`, in order. */
  function MarkAll(q: Queue, ids: seq<int>): Queue
    decreases |ids|
  {
    if ids == [] then q else MarkAll(MarkCompleted(q, ids[0]), ids[1..])
  }

  lemma {:induction false} MarkAllReleases(q: Queue, ids: seq<int>)
    ensures MarkAll(q, ids).pending == q.pending
    ensures forall k :: k in MarkAll(q, ids).processing <==> k in q.processing && k !in ids
    decreases |ids|
  {
    if ids != [] {
      MarkAllReleases(MarkCompleted(q, ids[0]), ids[1..]);
    }
  }

  /**
   * `is_empty` after a batch of `mark_completed` calls: the manager is idle
   * exactly when nothing waits and every task handed out has been marked.
   */
  lemma EmptyOnceAllCompleted(q: Queue, ids: seq<int>)
    ensures IsEmpty(MarkAll(q, ids)) <==> q.pending == [] && forall k :: k in q.processing ==> k in ids
  {
    MarkAllReleases(q, ids);
    var r := MarkAll(q, ids);
    if q.pending == [] && forall k :: k in q.processing ==> k in ids {
      assert r.processing == {} by {
        forall k | k in r.processing
          ensures false
        {
        }
      }
    }
  }

  /** First in, first out: what is added after the waiting tasks is handed out after them, in order. */
  lemma Fifo(q: Queue, ts: seq<Task>)
    ensures DrainAll(AddAll(q, ts)).0 == q.pending + ts
  {
    AddAllAppends(q, ts);
  }
}

=== FILE: task_status.dfy ===
/**
 * The status ledger `TaskExecutionStatus` (src/task/task_status.py): a status
 * string and a retry counter per task identifier, with a retry budget.
 */
module TaskStatus {

  /** `max_retries`: a counter may reach this value and still be within budget. */
  const MaxRetries: nat := 3

  const Pending: string := "pending"
  const Completed: string := "completed"
  const Failed: string := "failed"
  /** What `get_task_status` reports for an identifier it has never seen. */
  const Unknown: string := "unknown"

  /** The two dictionaries `status` and `current_retries`. */
  datatype Ledger<K> = Ledger(status: map<K, string>, retries: map<K, nat>)

  /** A new, empty ledger. */
  function Fresh<K>(): (r: Ledger<K>)
    ensures |r.status| == 0 && |r.retries| == 0
  {
    Ledger(map[], map[])
  }

  /** `get_task_status`: the recorded status, or "unknown". */
  function GetTaskStatus<K>(l: Ledger<K>, id: K): string {
    if id in l.status then l.status[id] else Unknown
  }

  /** `get_retry_count`: the recorded counter, or 0. */
  function GetRetryCount<K>(l: Ledger<K>, id: K): nat {
    if id in l.retries then l.retries[id] else 0
  }

  /** An identifier never initialised, updated or counted reads as "unknown" with no retries. */
  lemma NeverSeen<K>(l: Ledger<K>, id: K)
    requires id !in l.status && id !in l.retries
    ensures GetTaskStatus(l, id) == Unknown && GetRetryCount(l, id) == 0
  {
  }

  /** Both dictionaries have the same keys (every status came with a counter). */
  predicate Consistent<K>(l: Ledger<K>) {
    l.status.Keys == l.retries.Keys
  }

  /** `initialize_task`: status "pending" and counter 0 for `id`, nothing else touched. */
  function Initialize<K(!new)>(l: Ledger<K>, id: K): (r: Ledger<K>)
    ensures GetTaskStatus(r, id) == Pending && GetRetryCount(r, id) == 0
    ensures forall k :: k != id ==> GetTaskStatus(r, k) == GetTaskStatus(l, k)
    ensures forall k :: k != id ==> GetRetryCount(r, k) == GetRetryCount(l, k)
    ensures r.status.Keys == l.status.Keys + {id} && r.retries.Keys == l.retries.Keys + {id}
    ensures Consistent(l) ==> Consistent(r)
  {
    Ledger(l.status[id := Pending], l.retries[id := 0])
  }

  /** `update_status`: overwrites the status of `id` only. */
  function UpdateStatus<K(!new)>(l: Ledger<K>, id: K, status: string): (r: Ledger<K>)
    ensures GetTaskStatus(r, id) == status
    ensures forall k :: k != id ==> GetTaskStatus(r, k) == GetTaskStatus(l, k)
    ensures r.retries == l.retries
    ensures r.status.Keys == l.status.Keys + {id}
    ensures Consistent(l) && id in l.status ==> Consistent(r)
  {
    Ledger(l.status[id := status], l.retries)
  }

  /**
   * `increment_retry`: bumps the counter of `id` (a missing counter counts as
   * 0) and reports whether the new value is still within the budget.
   */
  function IncrementRetry<K(!new)>(l: Ledger<K>, id: K): (r: (bool, Ledger<K>))
    ensures GetRetryCount(r.1, id) == GetRetryCount(l, id) + 1
    ensures r.0 <==> GetRetryCount(l, id) + 1 <= MaxRetries
    ensures forall k :: k != id ==> GetRetryCount(r.1, k) == GetRetryCount(l, k)
    ensures r.1.status == l.status
    ensures r.1.retries.Keys == l.retries.Keys + {id}
    ensures Consistent(l) && id in l.status ==> Consistent(r.1)
  {
    var count := GetRetryCount(l, id) + 1;
    (count <= MaxRetries, Ledger(l.status, l.retries[id := count]))
  }

  /** `n` successive calls of `increment_retry` on `id`. */
  function IncrementTimes<K(!new)>(l: Ledger<K>, id: K, n: nat): Ledger<K> {
    if n == 0 then l else IncrementRetry(IncrementTimes(l, id, n - 1), id).1
  }

  lemma {:induction false} IncrementTimesCounts<K(!new)>(l: Ledger<K>, id: K, n: nat)
    ensures GetRetryCount(IncrementTimes(l, id, n), id) == GetRetryCount(l, id) + n
    ensures IncrementTimes(l, id, n).status == l.status
  {
    if n > 0 {
      IncrementTimesCounts(l, id, n - 1);
    }
  }

  /**
   * After `initialize_task`, the `n`-th call of `increment_retry` (counting
   * from 1) succeeds exactly when `n <= 3`: calls 1, 2 and 3 are within
   * budget and call 4 is not.
   */
  lemma RetryBudget<K(!new)>(l: Ledger<K>, id: K, n: nat)
    requires n >= 1
    ensures IncrementRetry(IncrementTimes(Initialize(l, id), id, n - 1), id).0 <==> n <= MaxRetries
  {
    IncrementTimesCounts(Initialize(l, id), id, n - 1);
  }

  /** The identifiers whose status is "completed". */
  function CompletedIds<K>(status: map<K, string>): set<K> {
    set k | k in status && status[k] == Completed
  }

  lemma SubsetCard<K>(a: set<K>, b: set<K>)
    requires a <= b
    ensures |a| <= |b|
  {
    assert b == a + (b - a);
  }

  lemma CompletedCountBound<K>(status: map<K, string>)
    ensures |CompletedIds(status)| <= |status|
    ensures |CompletedIds(status)| == |status| <==> forall k :: k in status ==> status[k] == Completed
  {
    var done := CompletedIds(status);
    SubsetCard(done, status.Keys);
    if done != status.Keys {
      assert !(status.Keys <= done);
      var k :| k in status.Keys && k !in done;
      SubsetCard(done, status.Keys - {k});
    }
  }

  /** `successful_tasks_count`: how many statuses are "completed". */
  function SuccessfulTasksCount<K>(l: Ledger<K>): (n: nat)
    ensures n <= |l.status|
    ensures n == |l.status| <==> forall k :: k in l.status ==> l.status[k] == Completed
  {
    CompletedCountBound(l.status);
    |CompletedIds(l.status)|
  }

  /** The count, computed by visiting every key once as the Python generator does. */
  method CountCompleted<K>(status: map<K, string>) returns (n: nat)
    ensures n == SuccessfulTasksCount(Ledger(status, map[]))
  {
    n := 0;
    var remaining := status.Keys;
    while remaining != {}
      invariant remaining <= status.Keys
      invariant n == |set k | k in status && k !in remaining && status[k] == Completed|
      decreases |remaining|
    {
      var k :| k in remaining;
      ghost var before := set j | j in status && j !in remaining && status[j] == Completed;
      remaining := remaining - {k};
      ghost var after := set j | j in status && j !in remaining && status[j] == Completed;
      if status[k] == Completed {
        assert after == before + {k};
        n := n + 1;
      } else {
        assert after == before;
      }
    }
    assert (set k | k in status && k !in remaining && status[k] == Completed) == CompletedIds(status);
  }

  /** Marking a task completed raises the count by one unless it already was. */
  lemma CountAfterCompletion<K(!new)>(l: Ledger<K>, id: K)
    ensures SuccessfulTasksCount(UpdateStatus(l, id, Completed))
         == SuccessfulTasksCount(l) + (if GetTaskStatus(l, id) == Completed then 0 else 1)
  {
    var r := UpdateStatus(l, id, Completed);
    if GetTaskStatus(l, id) == Completed {
      assert CompletedIds(r.status) == CompletedIds(l.status);
    } else {
      assert CompletedIds(r.status) == CompletedIds(l.status) + {id};
    }
  }

  /** Marking a task with any other status lowers the count by one if it was completed. */
  lemma CountAfterOtherStatus<K(!new)>(l: Ledger<K>, id: K, status: string)
    requires status != Completed
    ensures SuccessfulTasksCount(UpdateStatus(l, id, status))
         == SuccessfulTasksCount(l) - (if GetTaskStatus(l, id) == Completed then 1 else 0)
  {
    var r := UpdateStatus(l, id, status);
    if GetTaskStatus(l, id) == Completed {
      assert CompletedIds(l.status) == CompletedIds(r.status) + {id};
    } else {
      assert CompletedIds(r.status) == CompletedIds(l.status);
    }
  }
}

=== FILE: wrappers.dfy ===
/** Failure-carrying return values shared by the modules of this model. */
module Wrappers {

  /** A value that may be absent; Python's `None` return. */
  datatype Option<+T> = None | Some(value: T)

  /** Either a value or the error a Python function would have raised. */
  datatype Result<+R, +E> = Success(value: R) | Failure(error: E)
}
